=== FILE: README.md ===
# RepoStory preview extension — a Dafny model

The RepoStory VS Code extension shows a generated HTML walkthrough in a
webview panel beside the editor. Two pieces of real logic sit inside it, and
this project models both of them. It also models the choice of which file to show.

- **The asset-path rewriter** of `loadHtmlIntoPanel`. It reads the HTML file
  and makes one global, leftmost, non-overlapping pass of the pattern
  `(src|href)="(?!https?:\/\/)(?!data:)(?!#)([^"]+)"` over the text. Each
  matched value is resolved against the file's directory. It becomes the
  webview URI of that path when the path exists, and it is written back as it
  was when the path does not exist. A read failure becomes an error document.
  This is module `AssetRewriter`.
- **`resolveHtmlFile`** picks the file in a fixed order. First comes the
  active editor's file when its name ends in `.html`. Next comes the first of
  `demo.html`, `repo-story.html` and `walkthrough.html` that exists under the
  first workspace root. Last comes the file picker's choice, which may be
  nothing. This is module `FileResolver`.
- **The preview lifecycle.** The module-level `currentPanel`,
  `currentFilePath` and `fileWatcher` are modelled together with the set of
  live watchers and a source of fresh identities. There is one pure transition
  per command or host event: open preview, open file, refresh, open in browser,
  panel closed, and watched file changed or created. This is module
  `PreviewLifecycle`.

The host's services are uninterpreted functions bundled in the record
`HostServices.Host`. They are `path.dirname`, `path.basename`,
`path.resolve`, `path.join`, `fs.existsSync`, `fs.readFileSync` and
`asWebviewUri`. Every property therefore holds for every host. Each event
receives its own `Host`, which models a file system that changes between
events.

`Wrappers` holds `Option` and `Result`. `Strings` holds JavaScript's
`startsWith` and `endsWith`.

The scan is specified twice. The first version is operational: `MatchAt`
tries the pattern at one position the way the regex engine does, and
`Tokenize` runs it left to right. The second version is declarative:
`PatternMatches` and `LeftmostScan` describe the result. The two versions are
proved equal in both directions. `ReplaceAll` is the engine's loop, and it is
proved to compute `Rewrite`.

Two behaviours of the code that are easy to miss:

- **Empty folder array.** An empty but defined `workspaceFolders` array is
  truthy, so `workspaceFolders[0].uri` throws (extension.ts:75-76). This is
  modelled as `Failure(NoFirstFolder)`. The command is rejected and the state
  is left unchanged.
- **Panel title.** `loadHtmlIntoPanel` sets the title only after a successful
  read (extension.ts:168). A reused panel whose reload fails keeps its old
  title. A newly created panel has `RepoStory: <basename>` from its creation.

## Model

| member | source | states |
|---|---|---|
| AssetRewriter.AttrAt | vscode-extension/src/extension.ts:154 | the alternation of `src` and `href` followed by `="` succeeds exactly when the text starts with `src="` or `href="`, and it yields that attribute name |
| AssetRewriter.QuoteFreeRun | vscode-extension/src/extension.ts:154 | the greedy `[^"]+` consumes a prefix without quotes, and it stops only at a quote or at the end of the text |
| AssetRewriter.MatchAt | vscode-extension/src/extension.ts:154 | any match the engine reports at a position is `a="v"` with `a` one of `src`/`href`, `v` non-empty, without quotes and not starting with `http://`, `https://`, `data:` or `#` |
| AssetRewriter.ExemptOnValue | vscode-extension/src/extension.ts:154 | the three lookaheads, which look at the text after `="`, decide exactly as the same test applied to the captured value |
| AssetRewriter.QuoteFreeRunOf | vscode-extension/src/extension.ts:154 | when a quote-free value is followed by a quote, the greedy run captures exactly that value |
| AssetRewriter.MatchAtExact | vscode-extension/src/extension.ts:154 | the engine's attempt at a position finds groups `a` and `v` if and only if the pattern matches there with those groups |
| AssetRewriter.NoMatchAtWhenNone | vscode-extension/src/extension.ts:154 | when the engine's attempt fails, no `a="v"` of the pattern starts at that position |
| AssetRewriter.EmptyValueNeverMatched | vscode-extension/src/extension.ts:154 | `src=""` and `href=""` are never matched |
| AssetRewriter.SingleQuotedNeverMatched | vscode-extension/src/extension.ts:154 | single-quoted values `src='…` and `href='…` are never matched |
| AssetRewriter.UnclosedValueNeverMatched | vscode-extension/src/extension.ts:154 | a value with no closing quote is never matched |
| AssetRewriter.Tokenize | vscode-extension/src/extension.ts:153-154 | the global scan splits the text into unmatched characters and whole matches, and putting them back together gives the input again |
| AssetRewriter.TokenizeAdmissible | vscode-extension/src/extension.ts:153-154 | every match the global scan reports has a legal attribute name and a non-empty, quote-free, non-exempt value |
| AssetRewriter.TokenizeIsLeftmost | vscode-extension/src/extension.ts:153-154 | the scan's pieces form a leftmost, non-overlapping scan: each match starts where the pattern matches and the scan resumes after it, and each kept character sits where no match starts |
| AssetRewriter.LeftmostIsTokenize | vscode-extension/src/extension.ts:153-154 | any segmentation satisfying the leftmost-scan definition `LeftmostScan` is the scan's own |
| AssetRewriter.TokenizeCharacterized | vscode-extension/src/extension.ts:153-154 | a segmentation is a leftmost global scan of the text if and only if it is the scan's result |
| AssetRewriter.Replacement | vscode-extension/src/extension.ts:155-164 | the text the callback writes between the quotes of `attr="…"` is the webview URI of the value resolved against the directory when that path exists, and the value exactly as written when it does not |
| AssetRewriter.Rewrite | vscode-extension/src/extension.ts:153-165 | the result is the input's leftmost, non-overlapping segmentation into unmatched characters and matches, written back with every matched value passed through the callback |
| AssetRewriter.RewriteIdentity | vscode-extension/src/extension.ts:153-165 | if none of the matched values resolves to an existing file, the rewritten HTML equals the input |
| AssetRewriter.RewriteAtMatch | vscode-extension/src/extension.ts:155-164 | at a match, an existing resolved path turns the value into that path's webview URI and a missing one keeps the value. Both keep the attribute name and quotes, and the scan continues right after the match |
| AssetRewriter.RewriteKeepsAllButValues | vscode-extension/src/extension.ts:153-165 | every unmatched input character appears at its place in the output, and every match keeps `attr="…"` around the callback's value |
| AssetRewriter.ValueSpan | vscode-extension/src/extension.ts:154 | each matched value occurs in the input between an opening and a closing quote |
| AssetRewriter.ExemptValueUntouched | vscode-extension/src/extension.ts:154 | a quoted, quote-free value that starts with `http://`, `https://`, `data:` or `#` never overlaps any matched value, and matched values are the only text the rewrite replaces |
| AssetRewriter.ReplaceAll | vscode-extension/src/extension.ts:153-165 | the engine's left-to-right replace loop produces exactly the rewrite |
| AssetRewriter.LoadHtml | vscode-extension/src/extension.ts:147-179 | a failed read yields the error document carrying the error text, and a successful read yields the rewritten HTML with values resolved against the file's own directory. The failure never escapes |
| FileResolver.FirstPresentFrom | vscode-extension/src/extension.ts:77-82 | the candidate search returns the first name, in list order, that exists under the root, or nothing when none exists |
| FileResolver.PickerChoice | vscode-extension/src/extension.ts:93 | the picker yields a file exactly when the dialog was not cancelled and returned at least one file, and that file is the first one |
| FileResolver.ResolveHtmlFile | vscode-extension/src/extension.ts:66-94 | an active `.html` document wins. Next, an empty folder array throws. Next comes the first existing candidate under the first root. Otherwise the picker's choice is used |
| FileResolver.ResolveHtmlFileFrom | vscode-extension/src/extension.ts:66-94 | the resolved file always comes from one of the three sources, or the resolution throws on an empty folder array |
| PreviewLifecycle.InitInv | vscode-extension/src/extension.ts:5-7 | at activation there is no panel, no path and no watcher, and the lifecycle invariant holds |
| PreviewLifecycle.LoadInto | vscode-extension/src/extension.ts:147-179 | loading shows the loaded document in the same panel. The title becomes `RepoStory: <basename>` only when the read succeeded, and it is kept as it was on the error path |
| PreviewLifecycle.SetupWatcher | vscode-extension/src/extension.ts:182-204 | the previous watcher is disposed, and one new watcher is live, bound to the given path and panel |
| PreviewLifecycle.Open | vscode-extension/src/extension.ts:96-128 | an open panel is reused, and otherwise a panel with a fresh identity and title is created. The path becomes current, and exactly one new watcher is live, bound to that path and panel |
| PreviewLifecycle.Dispose | vscode-extension/src/extension.ts:131-137 | closing the panel clears panel, path and watcher, and it disposes the watcher, so none is live |
| PreviewLifecycle.Refresh | vscode-extension/src/extension.ts:32-40 | refresh does nothing unless a panel and a non-empty (truthy) path are both current, and then it reloads that path into that panel |
| PreviewLifecycle.OpenInBrowser | vscode-extension/src/extension.ts:43-50 | a file is handed to the browser exactly when a path is current, and that file is the current path |
| PreviewLifecycle.OpenFile | vscode-extension/src/extension.ts:22-29 | an empty or non-existent path changes nothing. An existing one is opened exactly as `Open` does: an open panel is reused, the path becomes current and loaded, and the watcher is rebound to a fresh one |
| PreviewLifecycle.OpenPreview | vscode-extension/src/extension.ts:11-19 | the command is rejected exactly when resolution throws. Nothing resolved means no change. A resolved non-empty path is opened, and any change is that opening |
| PreviewLifecycle.WatcherFired | vscode-extension/src/extension.ts:196-203 | a disposed watcher's events change nothing. Under the invariant, a live watcher's event does exactly what `refresh` does, reloading the current path into the panel and keeping the path and the watchers |
| PreviewLifecycle.Step | vscode-extension/src/extension.ts:9-58 | every event keeps the lifecycle invariant. Each event performs its handler's transition: `openPreview` is `OpenPreview` and is rejected exactly when resolution throws, `openFile` is `OpenFile`, `refresh` is `Refresh`, `openInBrowser` hands out `OpenInBrowser`'s file (the current path whenever it is truthy) and keeps the state, a panel close is `Dispose` and a watcher's change or create event is `WatcherFired`. Only `openInBrowser` hands out a file, a rejection leaves the state unchanged, and no event lowers the identity counter |
| PreviewLifecycle.RunPreservesInv | vscode-extension/src/extension.ts:5-7 | after any sequence of events, at most one watcher is live and the panel and the path are absent together |
| PreviewLifecycle.ReachableInv | vscode-extension/src/extension.ts:5-7 | every state reachable from activation satisfies the lifecycle invariant |
| PreviewLifecycle.RunNeverLowersNext | vscode-extension/src/extension.ts:104-128 | over any sequence of events the identity counter never goes down, so panels and watchers created later get identities not drawn before |
| PreviewLifecycle.DisposeThenOpenFresh | vscode-extension/src/extension.ts:104-137 | after the panel is closed, the next open creates a new panel whose identity differs from the closed panel's and is at least the identity counter |
| PreviewLifecycle.OpenTwiceOneWatcher | vscode-extension/src/extension.ts:104-110 | opening a second file reuses the panel and makes the second path current. The first watcher is disposed and exactly one watcher, bound to the second path, is live |
| PreviewLifecycle.WatcherFiredIsRefresh | vscode-extension/src/extension.ts:196-203 | a live watcher's change or create event does exactly what `refresh` does, because it captured the current path and panel |

## Left out

- `deactivate` only disposes the watcher when the extension unloads. It is not modelled.
- The following VS Code API surface is not modelled:
  - command registration and `context.subscriptions`;
  - `reveal` and the view column;
  - the `createWebviewPanel` options;
  - status-bar messages, so a change event and a create event behave the same here;
  - the dialog's options and filters, so the picker's result is an input;
  - the actual `openExternal` call, whose argument `Step` returns instead.
- The real behaviour of `path`, `fs` and `asWebviewUri`, including the string
  form of a webview URI, is not modelled. These are uninterpreted fields of
  `Host`.
- The error page's markup and styling are left out. It is `ErrorDoc(String(err))`.
- A newly created webview's blank content is modelled as `Page("")`. The
  model loads the file into it straight away.
- Each event is one atomic transition. Interleavings inside the asynchronous
  `openPreview` command, such as other events arriving while the picker is
  open, are not modelled.
- The host delivers a watcher's events only while that watcher is live. The
  host's delivery order and its debouncing are not modelled.
- `openFile` called with a value that is not a string is not modelled. An
  `undefined` argument behaves like `""`, because both are falsy.
- The `TypeError` thrown on an empty folder array is modelled as the single
  value `NoFirstFolder`. Its message is not modelled.
- AssetRewriter.ExemptValueUntouched: states that an exempt value never
  overlaps a matched value. That its characters then reappear in the output
  follows together with `RewriteKeepsAllButValues`. It is not stated as a
  single lemma, because an exempt value can span several pieces, including
  the attribute name of a later match, as in `href="http://xsrc="abc"`. The
  value then is not one piece with one output offset.
- Only the one fixed pattern is modelled, not a general regular-expression
  engine.

=== FILE: asset_rewriter.dfy ===
/** The asset-path rewriter of `loadHtmlIntoPanel`: one global, left-to-right,
    non-overlapping substitution of the fixed pattern

        (src|href)="(?!https?:\/\/)(?!data:)(?!#)([^"]+)"

    over the HTML text, and the load step that wraps it and turns a read
    failure into an error document. */
module AssetRewriter {
  import opened Wrappers
  import opened Strings
  import opened HostServices

  const Quote: char := '"'

  /** Text the three negative lookaheads refuse: an absolute `http://` or
      `https://` URL, a `data:` URL, or a fragment link. */
  predicate Exempt(s: string) {
    StartsWith(s, "http://") || StartsWith(s, "https://") || StartsWith(s, "data:") || StartsWith(s, "#")
  }

  /** The first capture group: the attribute name. */
  predicate IsAttrName(a: string) {
    a == "src" || a == "href"
  }

  /** The text `attr="value"` a match covers. */
  function Quoted(attr: string, value: string): string {
    attr + "=\"" + value + "\""
  }

  /** Where the parts of `attr="value"` sit. */
  lemma QuotedLayout(a: string, v: string)
    ensures |Quoted(a, v)| == |a| + |v| + 3
    ensures Quoted(a, v)[..|a| + 2] == a + "=\""
    ensures Quoted(a, v)[|a| + 2..] == v + [Quote]
    ensures Quoted(a, v)[|a| + 1] == Quote
    ensures Quoted(a, v)[|a| + 2..|a| + 2 + |v|] == v
    ensures Quoted(a, v)[|a| + 2 + |v|] == Quote
  {
    var o := a + "=\"";
    assert Quoted(a, v) == o + (v + [Quote]);
    assert o[|a| + 1] == Quote;
  }

  /** Declarative reading of the pattern anchored at the start of `t`: it
      matches with groups `a` and `v` exactly when `t` begins with `a="v"`,
      `a` is one of the two attribute names and `v` is a non-empty run of
      non-quote characters that is not exempt. */
  predicate PatternMatches(t: string, a: string, v: string) {
    IsAttrName(a) && |v| > 0 && Quote !in v && !Exempt(v) && StartsWith(t, Quoted(a, v))
  }

  /** A match: the two capture groups. */
  datatype Match = Match(attr: string, value: string)

  /** The alternation `(src|href)` followed by `="`. */
  function AttrAt(t: string): (r: Option<string>)
    ensures r.Some? ==> IsAttrName(r.value) && StartsWith(t, r.value + "=\"")
    ensures r.None? ==> !StartsWith(t, "src=\"") && !StartsWith(t, "href=\"")
  {
    if StartsWith(t, "src=\"") then Some("src")
    else if StartsWith(t, "href=\"") then Some("href")
    else None
  }

  /** How many characters the greedy `[^"]+` can consume at the start of `t`:
      the length of the leading run of non-quote characters. */
  function QuoteFreeRun(t: string): (n: nat)
    ensures n <= |t|
    ensures Quote !in t[..n]
    ensures n < |t| ==> t[n] == Quote
  {
    if t == [] || t[0] == Quote then 0
    else
      var n := 1 + QuoteFreeRun(t[1..]);
      assert t[..n] == [t[0]] + t[1..][..n - 1];
      n
  }

  /** The regex engine's attempt at the start of `t`: the alternation, the
      three lookaheads on the text after `="`, one or more non-quote
      characters, and the closing quote. Any failing step means no match
      here. */
  function MatchAt(t: string): (r: Option<Match>)
    ensures r.Some? ==> PatternMatches(t, r.value.attr, r.value.value)
  {
    match AttrAt(t)
    case None => None
    case Some(a) =>
      var rest := t[|a| + 2..];
      if Exempt(rest) then None
      else
        var n := QuoteFreeRun(rest);
        if n == 0 || n == |rest| then None
        else
          var v := rest[..n];
          assert StartsWith(rest, v + [Quote]);
          ExemptOnValue(v, rest);
          assert t == (a + "=\"") + rest;
          assert Quoted(a, v) == (a + "=\"") + (v + [Quote]);
          Some(Match(a, v))
  }

  /** A prefix without quotes is a prefix of a quote-terminated text exactly
      when it is a prefix of the text before the quote. */
  lemma {:induction false} QuoteFreePrefix(v: string, rest: string, p: string)
    requires Quote !in v && Quote !in p
    requires StartsWith(rest, v + [Quote])
    ensures StartsWith(rest, p) <==> StartsWith(v, p)
  {
    if |p| <= |v| {
      assert rest[..|p|] == (v + [Quote])[..|p|] == v[..|p|];
    } else {
      assert rest[|v|] == (v + [Quote])[|v|] == Quote;
      assert p[|v|] != Quote;
    }
  }

  /** The lookaheads, which inspect the text after `="`, decide the same as
      a test on the captured value: none of the exempt prefixes holds a quote. */
  lemma ExemptOnValue(v: string, rest: string)
    requires Quote !in v
    requires StartsWith(rest, v + [Quote])
    ensures Exempt(rest) <==> Exempt(v)
  {
    QuoteFreePrefix(v, rest, "http://");
    QuoteFreePrefix(v, rest, "https://");
    QuoteFreePrefix(v, rest, "data:");
    QuoteFreePrefix(v, rest, "#");
  }

  /** The run of non-quote characters before a quote is exactly the text
      before that quote. */
  lemma {:induction false} QuoteFreeRunOf(v: string, rest: string)
    requires Quote !in v
    requires StartsWith(rest, v + [Quote])
    ensures QuoteFreeRun(rest) == |v|
    decreases |v|
  {
    if v == [] {
      assert rest[0] == (v + [Quote])[0] == Quote;
    } else {
      assert rest[0] == v[0] != Quote;
      assert rest[1..][..|v[1..]| + 1] == rest[..|v| + 1][1..] == (v[1..] + [Quote]);
      QuoteFreeRunOf(v[1..], rest[1..]);
    }
  }

  /** The alternation recognises either attribute name followed by `="`. */
  lemma AttrAtOf(a: string, w: string)
    requires IsAttrName(a)
    ensures AttrAt(a + "=\"" + w) == Some(a)
  {
    var t := a + "=\"" + w;
    if a == "src" {
      assert t == "src=\"" + w;
      assert t[..5] == "src=\"";
    } else {
      assert t == "href=\"" + w;
      assert t[..6] == "href=\"";
      assert t[0] == 'h';
    }
  }

  /** The scan and the declarative pattern agree at every position, in both
      directions: `MatchAt` finds `a="v"` exactly when the pattern matches
      there with those groups. */
  lemma MatchAtExact(t: string, a: string, v: string)
    ensures MatchAt(t) == Some(Match(a, v)) <==> PatternMatches(t, a, v)
  {
    if PatternMatches(t, a, v) {
      var q := Quoted(a, v);
      QuotedLayout(a, v);
      var rest := t[|a| + 2..];
      assert t[..|a| + 2] == q[..|a| + 2];
      assert t == (a + "=\"") + rest;
      AttrAtOf(a, rest);
      assert rest[..|v| + 1] == q[|a| + 2..];
      ExemptOnValue(v, rest);
      QuoteFreeRunOf(v, rest);
    }
  }

  /** No match starts at the head of `t`. */
  ghost predicate NoMatchAt(t: string) {
    forall a, v :: !PatternMatches(t, a, v)
  }

  lemma NoMatchAtWhenNone(t: string)
    requires MatchAt(t).None?
    ensures NoMatchAt(t)
  {
    forall a, v ensures !PatternMatches(t, a, v) {
      MatchAtExact(t, a, v);
    }
  }

  /** The pattern never matches an empty value `a=""`. */
  lemma EmptyValueNeverMatched(a: string, w: string)
    requires IsAttrName(a)
    ensures MatchAt(a + "=\"\"" + w).None?
  {
    var t := a + "=\"\"" + w;
    assert t == a + "=\"" + ("\"" + w);
    AttrAtOf(a, "\"" + w);
    assert t[|a| + 2..] == "\"" + w;
  }

  /** The pattern never matches a single-quoted value `a='...`. */
  lemma SingleQuotedNeverMatched(a: string, w: string)
    requires IsAttrName(a)
    ensures MatchAt(a + "='" + w).None?
  {
    var t := a + "='" + w;
    if a == "src" {
      assert t == "src='" + w;
      assert t[4] == '\'';
      assert t[0] == 's';
    } else {
      assert t == "href='" + w;
      assert t[5] == '\'';
      assert t[0] == 'h';
    }
  }

  /** The pattern never matches a value whose closing quote is missing. */
  lemma UnclosedValueNeverMatched(a: string, w: string)
    requires IsAttrName(a) && Quote !in w
    ensures MatchAt(a + "=\"" + w).None?
  {
    var t := a + "=\"" + w;
    AttrAtOf(a, w);
    assert t[|a| + 2..] == w;
  }

  /** A piece of the scanned text: a character no match starts at, or a
      whole match. */
  datatype Piece = Text(c: char) | Ref(attr: string, value: string)

  /** What the scan may produce as a match. */
  predicate Admissible(p: Piece) {
    p.Ref? ==> IsAttrName(p.attr) && |p.value| > 0 && Quote !in p.value && !Exempt(p.value)
  }

  /** What happens to a matched value when the pieces are written back:
      kept as written, or passed through the replacement callback. */
  datatype ValueMap = Keep | Resolve(h: Host, dir: Path)

  function Apply(f: ValueMap, v: string): string {
    match f
    case Keep => v
    case Resolve(h, dir) => Replacement(h, dir, v)
  }

  /** Writes the pieces back as text, passing each matched value through
      `sub`; attribute names, `="`, the closing quote and unmatched
      characters are always written as they are. */
  function Emit(ps: seq<Piece>, sub: ValueMap): string {
    if ps == [] then [] else EmitPiece(ps[0], sub) + Emit(ps[1..], sub)
  }

  function EmitPiece(p: Piece, sub: ValueMap): string {
    match p
    case Text(c) => [c]
    case Ref(a, v) => Quoted(a, Apply(sub, v))
  }

  /** The pieces written back unchanged. */
  function Flatten(ps: seq<Piece>): string {
    Emit(ps, Keep)
  }

  lemma {:induction false} EmitAppend(xs: seq<Piece>, ys: seq<Piece>, sub: ValueMap)
    ensures Emit(xs + ys, sub) == Emit(xs, sub) + Emit(ys, sub)
    decreases |xs|
  {
    if xs == [] {
      assert xs + ys == ys;
    } else {
      assert (xs + ys)[1..] == xs[1..] + ys;
      EmitAppend(xs[1..], ys, sub);
    }
  }

  /** Two substitutions that agree on every matched value write the same text. */
  lemma {:induction false} EmitAgree(ps: seq<Piece>, f: ValueMap, g: ValueMap)
    requires forall i :: 0 <= i < |ps| && ps[i].Ref? ==> Apply(f, ps[i].value) == Apply(g, ps[i].value)
    ensures Emit(ps, f) == Emit(ps, g)
    decreases |ps|
  {
    if ps != [] {
      EmitAgree(ps[1..], f, g);
    }
  }

  /** The leftmost, non-overlapping scan: at each position take the match
      that starts there if there is one and continue after it; otherwise
      keep the character and move one position on. Writing the pieces back
      gives the input again. */
  function Tokenize(t: string): (ps: seq<Piece>)
    ensures Flatten(ps) == t
    decreases |t|
  {
    if t == [] then []
    else
      match MatchAt(t)
      case Some(m) =>
        var rest := Tokenize(t[|Quoted(m.attr, m.value)|..]);
        FlattenRef(t, m.attr, m.value, rest);
        [Ref(m.attr, m.value)] + rest
      case None =>
        var rest := Tokenize(t[1..]);
        FlattenText(t, rest);
        [Text(t[0])] + rest
  }

  /** A match at the head, followed by pieces of what comes after it,
      flattens back to the whole text. */
  lemma FlattenRef(t: string, a: string, v: string, rest: seq<Piece>)
    requires StartsWith(t, Quoted(a, v))
    requires Flatten(rest) == t[|Quoted(a, v)|..]
    ensures Flatten([Ref(a, v)] + rest) == t
  {
    FlattenCons(Ref(a, v), rest);
    assert t == t[..|Quoted(a, v)|] + t[|Quoted(a, v)|..];
  }

  /** A character at the head, followed by pieces of the rest, flattens
      back to the whole text. */
  lemma FlattenText(t: string, rest: seq<Piece>)
    requires t != [] && Flatten(rest) == t[1..]
    ensures Flatten([Text(t[0])] + rest) == t
  {
    FlattenCons(Text(t[0]), rest);
    assert t == [t[0]] + t[1..];
  }

  /** Every match the scan reports is one the pattern admits. */
  lemma {:induction false} TokenizeAdmissible(t: string)
    ensures forall i :: 0 <= i < |Tokenize(t)| ==> Admissible(Tokenize(t)[i])
    decreases |t|
  {
    if t != [] {
      TokenizeUnfold(t);
      var ps := Tokenize(t);
      match MatchAt(t)
      case Some(m) =>
        TokenizeAdmissible(t[|Quoted(m.attr, m.value)|..]);
        assert forall i :: 1 <= i < |ps| ==> ps[i] == Tokenize(t[|Quoted(m.attr, m.value)|..])[i - 1];
      case None =>
        TokenizeAdmissible(t[1..]);
        assert forall i :: 1 <= i < |ps| ==> ps[i] == Tokenize(t[1..])[i - 1];
    }
  }

  lemma FlattenCons(p: Piece, ps: seq<Piece>)
    ensures Flatten([p] + ps) == EmitPiece(p, Keep) + Flatten(ps)
    ensures EmitPiece(p, Keep) == (match p case Text(c) => [c] case Ref(a, v) => Quoted(a, v))
  {
    assert ([p] + ps)[1..] == ps;
  }

  /** Declarative statement of a global leftmost scan: every piece is either
      a match of the pattern at the current position, after which the scan
      resumes at the match's end, or a character at a position where no
      match starts. */
  ghost predicate LeftmostScan(t: string, ps: seq<Piece>)
    decreases |ps|
  {
    if ps == [] then t == []
    else
      match ps[0]
      case Ref(a, v) => PatternMatches(t, a, v) && LeftmostScan(t[|Quoted(a, v)|..], ps[1..])
      case Text(c) => |t| > 0 && t[0] == c && NoMatchAt(t) && LeftmostScan(t[1..], ps[1..])
  }

  lemma {:induction false} TokenizeIsLeftmost(t: string)
    ensures LeftmostScan(t, Tokenize(t))
    decreases |t|
  {
    var ps := Tokenize(t);
    if t != [] {
      match MatchAt(t)
      case Some(m) =>
        TokenizeIsLeftmost(t[|Quoted(m.attr, m.value)|..]);
      case None =>
        NoMatchAtWhenNone(t);
        TokenizeIsLeftmost(t[1..]);
    }
  }

  /** One unfolding of the scan. */
  lemma TokenizeUnfold(t: string)
    requires t != []
    ensures MatchAt(t).Some? ==>
      var m := MatchAt(t).value;
      |Quoted(m.attr, m.value)| <= |t| &&
      Tokenize(t) == [Ref(m.attr, m.value)] + Tokenize(t[|Quoted(m.attr, m.value)|..])
    ensures MatchAt(t).None? ==> Tokenize(t) == [Text(t[0])] + Tokenize(t[1..])
  {
  }

  lemma NoneWhenNoMatch(t: string)
    requires NoMatchAt(t)
    ensures MatchAt(t).None?
  {
  }

  lemma {:induction false} LeftmostIsTokenize(t: string, ps: seq<Piece>)
    requires LeftmostScan(t, ps)
    ensures ps == Tokenize(t)
    decreases |ps|
  {
    if ps != [] {
      assert ps == [ps[0]] + ps[1..];
      match ps[0]
      case Ref(a, v) =>
        MatchAtExact(t, a, v);
        TokenizeUnfold(t);
        LeftmostIsTokenize(t[|Quoted(a, v)|..], ps[1..]);
      case Text(c) =>
        NoneWhenNoMatch(t);
        TokenizeUnfold(t);
        LeftmostIsTokenize(t[1..], ps[1..]);
    }
  }

  /** `Tokenize` is the one and only segmentation a leftmost global scan
      admits. */
  lemma TokenizeCharacterized(t: string, ps: seq<Piece>)
    ensures LeftmostScan(t, ps) <==> ps == Tokenize(t)
  {
    if LeftmostScan(t, ps) {
      LeftmostIsTokenize(t, ps);
    }
    if ps == Tokenize(t) {
      TokenizeIsLeftmost(t);
    }
  }

  /** Whether a matched value names a file that exists once resolved
      against the HTML file's directory. */
  predicate Resolvable(h: Host, dir: Path, v: string) {
    h.fileExists(h.resolve(dir, v))
  }

  /** The replacement callback's value: the webview URI of the resolved
      path when it exists, the value as written otherwise. */
  function Replacement(h: Host, dir: Path, v: string): (r: string)
    ensures Resolvable(h, dir, v) ==> r == h.webviewUri(h.resolve(dir, v))
    ensures !Resolvable(h, dir, v) ==> r == v
  {
    var absolute := h.resolve(dir, v);
    if h.fileExists(absolute) then h.webviewUri(absolute) else v
  }

  /** The result of `html.replace(pattern, callback)`. */
  function Rewrite(h: Host, dir: Path, html: string): (r: string)
    ensures exists ps :: LeftmostScan(html, ps) && Flatten(ps) == html && r == Emit(ps, Resolve(h, dir))
  {
    TokenizeIsLeftmost(html);
    Emit(Tokenize(html), Resolve(h, dir))
  }

  /** If no matched value resolves to an existing file, the rewritten text
      equals the input. */
  lemma RewriteIdentity(h: Host, dir: Path, html: string)
    requires forall i :: 0 <= i < |Tokenize(html)| && Tokenize(html)[i].Ref? ==>
      !Resolvable(h, dir, Tokenize(html)[i].value)
    ensures Rewrite(h, dir, html) == html
  {
    var ps := Tokenize(html);
    forall i | 0 <= i < |ps| && ps[i].Ref?
      ensures Apply(Resolve(h, dir), ps[i].value) == Apply(Keep, ps[i].value)
    {
      assert !Resolvable(h, dir, ps[i].value);
    }
    EmitAgree(ps, Resolve(h, dir), Keep);
  }

  /** A match at the head of the text: the attribute name, `="` and the
      closing quote are kept; the value becomes the URI of its resolved path
      when that path exists and stays as written otherwise; the scan resumes
      right after the closing quote. */
  lemma RewriteAtMatch(h: Host, dir: Path, a: string, v: string, rest: string)
    requires IsAttrName(a) && |v| > 0 && Quote !in v && !Exempt(v)
    ensures Resolvable(h, dir, v) ==>
      Rewrite(h, dir, Quoted(a, v) + rest) == Quoted(a, h.webviewUri(h.resolve(dir, v))) + Rewrite(h, dir, rest)
    ensures !Resolvable(h, dir, v) ==>
      Rewrite(h, dir, Quoted(a, v) + rest) == Quoted(a, v) + Rewrite(h, dir, rest)
  {
    var t := Quoted(a, v) + rest;
    assert t[..|Quoted(a, v)|] == Quoted(a, v);
    MatchAtExact(t, a, v);
    assert t[|Quoted(a, v)|..] == rest;
    var ps := Tokenize(t);
    assert ps == [Ref(a, v)] + Tokenize(rest);
    assert ps[1..] == Tokenize(rest);
  }

  /** Where piece `n` starts in the text `Emit(ps, sub)` writes. */
  function Offset(ps: seq<Piece>, n: nat, sub: ValueMap): nat
    requires n <= |ps|
  {
    |Emit(ps[..n], sub)|
  }

  lemma SplitAt(ps: seq<Piece>, n: nat, sub: ValueMap)
    requires n < |ps|
    ensures Emit(ps, sub) == Emit(ps[..n], sub) + EmitPiece(ps[n], sub) + Emit(ps[n + 1..], sub)
  {
    assert ps == ps[..n] + ([ps[n]] + ps[n + 1..]);
    EmitAppend(ps[..n], [ps[n]] + ps[n + 1..], sub);
    EmitCons(ps[n], ps[n + 1..], sub);
    AppendAssoc(Emit(ps[..n], sub), EmitPiece(ps[n], sub), Emit(ps[n + 1..], sub));
  }

  /** Piece `n` is written, whole, at its offset. */
  lemma PieceAt(ps: seq<Piece>, n: nat, sub: ValueMap)
    requires n < |ps|
    ensures var o := Offset(ps, n, sub);
            var e := EmitPiece(ps[n], sub);
            o + |e| <= |Emit(ps, sub)| && Emit(ps, sub)[o..o + |e|] == e
  {
    SplitAt(ps, n, sub);
  }

  /** Where piece `n` of the scan starts in the input. */
  function InputOffset(t: string, n: nat): nat
    requires n <= |Tokenize(t)|
  {
    Offset(Tokenize(t), n, Keep)
  }

  /** Where piece `n` of the scan starts in the rewritten text. */
  function OutputOffset(h: Host, dir: Path, t: string, n: nat): nat
    requires n <= |Tokenize(t)|
  {
    Offset(Tokenize(t), n, Resolve(h, dir))
  }

  /** What `EmitPiece` writes for one piece. */
  lemma EmitPieceIs(p: Piece, sub: ValueMap)
    ensures p.Text? ==> EmitPiece(p, sub) == [p.c]
    ensures p.Ref? ==> EmitPiece(p, sub) == Quoted(p.attr, Apply(sub, p.value))
  {
  }

  /** `x` occurs in `t` starting at index `i`. */
  predicate OccursAt(t: string, i: nat, x: string) {
    i + |x| <= |t| && t[i..i + |x|] == x
  }

  /** In any text written from pieces, piece `n` is written at its offset:
      its character, or its `attr="value"` with the value passed through
      `sub`. */
  lemma PieceLaidOut(ps: seq<Piece>, n: nat, sub: ValueMap)
    requires n < |ps|
    ensures ps[n].Text? ==> OccursAt(Emit(ps, sub), Offset(ps, n, sub), [ps[n].c])
    ensures ps[n].Ref? ==> OccursAt(Emit(ps, sub), Offset(ps, n, sub), Quoted(ps[n].attr, Apply(sub, ps[n].value)))
  {
    PieceAt(ps, n, sub);
    EmitPieceIs(ps[n], sub);
  }

  /** Nothing outside matched values changes: every unmatched character of
      the input reappears in the output, and every match keeps its attribute
      name, its `="` and its closing quote, with only the value in between
      replaced by the callback's value. */
  lemma RewriteKeepsAllButValues(h: Host, dir: Path, t: string, n: nat)
    requires n < |Tokenize(t)|
    ensures Tokenize(t)[n].Text? ==>
      OccursAt(t, InputOffset(t, n), [Tokenize(t)[n].c]) &&
      OccursAt(Rewrite(h, dir, t), OutputOffset(h, dir, t, n), [Tokenize(t)[n].c])
    ensures Tokenize(t)[n].Ref? ==>
      OccursAt(t, InputOffset(t, n), Quoted(Tokenize(t)[n].attr, Tokenize(t)[n].value)) &&
      OccursAt(Rewrite(h, dir, t), OutputOffset(h, dir, t, n),
               Quoted(Tokenize(t)[n].attr, Replacement(h, dir, Tokenize(t)[n].value)))
  {
    PieceLaidOut(Tokenize(t), n, Keep);
    PieceLaidOut(Tokenize(t), n, Resolve(h, dir));
  }

  /** Where the value of match piece `n` begins in the input. */
  function ValueStart(t: string, n: nat): nat
    requires n < |Tokenize(t)| && Tokenize(t)[n].Ref?
  {
    RefValueStart(Tokenize(t), n)
  }

  /** Where the value of match piece `n` begins in the text the pieces
      flatten to: after everything before the piece, the attribute name and
      `="`. */
  function RefValueStart(ps: seq<Piece>, n: nat): nat
    requires n < |ps| && ps[n].Ref?
  {
    Offset(ps, n, Keep) + |ps[n].attr| + 2
  }

  /** `v` occurs in `t` at index `s`, with a quote right before and right
      after it. */
  predicate BetweenQuotes(t: string, s: nat, v: string) {
    0 < s && s + |v| < |t| && t[s - 1] == Quote && t[s..s + |v|] == v && t[s + |v|] == Quote
  }

  /** Wherever `a="v"` occurs, `v` sits between two quotes. */
  lemma QuotedAt(t: string, i: nat, a: string, v: string)
    requires OccursAt(t, i, Quoted(a, v))
    ensures BetweenQuotes(t, i + |a| + 2, v)
  {
    var q := Quoted(a, v);
    QuotedLayout(a, v);
    var s := i + |a| + 2;
    assert t[s - 1] == q[|a| + 1];
    assert t[s + |v|] == q[|a| + 2 + |v|];
    assert t[s..s + |v|] == t[i..i + |q|][|a| + 2..|a| + 2 + |v|];
  }

  /** In the text the pieces flatten to, a match's value sits between two
      quotes. */
  lemma RefValueBetweenQuotes(t: string, ps: seq<Piece>, n: nat)
    requires Flatten(ps) == t
    requires n < |ps| && ps[n].Ref?
    ensures BetweenQuotes(t, RefValueStart(ps, n), ps[n].value)
  {
    PieceLaidOut(ps, n, Keep);
    QuotedAt(t, Offset(ps, n, Keep), ps[n].attr, ps[n].value);
  }

  /** A matched value sits in the input between two quotes. */
  lemma ValueSpan(t: string, n: nat)
    requires n < |Tokenize(t)| && Tokenize(t)[n].Ref?
    ensures BetweenQuotes(t, ValueStart(t, n), Tokenize(t)[n].value)
  {
    RefValueBetweenQuotes(t, Tokenize(t), n);
  }

  /** Two quote-free runs that each sit between two quotes are either the
      same run or do not overlap. */
  lemma QuotedRunsDisjoint(t: string, s: nat, v: string, q: nat, w: string)
    requires BetweenQuotes(t, s, v) && Quote !in v
    requires BetweenQuotes(t, q, w) && Quote !in w
    ensures (s == q && v == w) || s + |v| <= q || q + |w| <= s
  {
    forall j | s <= j < s + |v| ensures t[j] != Quote {
      assert t[j] == v[j - s];
    }
    forall j | q <= j < q + |w| ensures t[j] != Quote {
      assert t[j] == w[j - q];
    }
  }

  /** An exempt value between two quotes anywhere in the input (an
      `http://`, `https://`, `data:` or `#` reference) never overlaps a
      matched value, so the rewrite leaves it byte for byte as it was. */
  lemma ExemptValueUntouched(t: string, q: nat, w: string, n: nat)
    requires BetweenQuotes(t, q, w) && Quote !in w && Exempt(w)
    requires n < |Tokenize(t)| && Tokenize(t)[n].Ref?
    ensures ValueStart(t, n) + |Tokenize(t)[n].value| <= q || q + |w| <= ValueStart(t, n)
  {
    ValueSpan(t, n);
    TokenizeAdmissible(t);
    AdmissibleRefsDisjoint(t, ValueStart(t, n), Tokenize(t)[n], q, w);
  }

  lemma AdmissibleRefsDisjoint(t: string, s: nat, p: Piece, q: nat, w: string)
    requires p.Ref? && Admissible(p) && BetweenQuotes(t, s, p.value)
    requires BetweenQuotes(t, q, w) && Quote !in w && Exempt(w)
    ensures s + |p.value| <= q || q + |w| <= s
  {
    QuotedRunsDisjoint(t, s, p.value, q, w);
  }

  /** One step of the scan at index `i` where the pattern matches: what has
      been written so far plus the replacement, followed by what the text
      after the match becomes, is still the whole result. */
  lemma ScanStepMatch(html: string, i: nat, j: nat, sub: ValueMap, out: string, goal: string, m: Match)
    requires i < |html| && MatchAt(html[i..]) == Some(m)
    requires j == i + |Quoted(m.attr, m.value)|
    requires out + Emit(Tokenize(html[i..]), sub) == goal
    ensures j <= |html|
    ensures (out + Quoted(m.attr, Apply(sub, m.value))) + Emit(Tokenize(html[j..]), sub) == goal
  {
    MatchStepPieces(html, i, j, m);
    StepAlgebra(out, Ref(m.attr, m.value), Tokenize(html[j..]), Tokenize(html[i..]), sub, goal);
  }

  /** The pieces at index `i` where the pattern matches: the match, then the
      pieces of the text after it. */
  lemma MatchStepPieces(html: string, i: nat, j: nat, m: Match)
    requires i < |html| && MatchAt(html[i..]) == Some(m)
    requires j == i + |Quoted(m.attr, m.value)|
    ensures j <= |html|
    ensures Tokenize(html[i..]) == [Ref(m.attr, m.value)] + Tokenize(html[j..])
  {
    TokenizeUnfold(html[i..]);
    DropDrop(html, i, |Quoted(m.attr, m.value)|, j);
  }

  /** One step of the scan at index `i` where the pattern does not match:
      the character is copied and the scan moves one position on. */
  lemma ScanStepText(html: string, i: nat, j: nat, sub: ValueMap, out: string, goal: string)
    requires i < |html| && MatchAt(html[i..]).None?
    requires j == i + 1
    requires out + Emit(Tokenize(html[i..]), sub) == goal
    ensures (out + [html[i]]) + Emit(Tokenize(html[j..]), sub) == goal
  {
    TextStepPieces(html, i, j);
    StepAlgebra(out, Text(html[i]), Tokenize(html[j..]), Tokenize(html[i..]), sub, goal);
  }

  /** The pieces at index `i` where the pattern does not match: the
      character, then the pieces of the text after it. */
  lemma TextStepPieces(html: string, i: nat, j: nat)
    requires i < |html| && MatchAt(html[i..]).None?
    requires j == i + 1
    ensures Tokenize(html[i..]) == [Text(html[i])] + Tokenize(html[j..])
  {
    TokenizeUnfold(html[i..]);
    DropDrop(html, i, 1, j);
  }

  /** Moving the first piece's text from the pending part to the written
      part keeps the sum. */
  lemma StepAlgebra(out: string, p: Piece, after: seq<Piece>, here: seq<Piece>, sub: ValueMap, goal: string)
    requires here == [p] + after
    requires out + Emit(here, sub) == goal
    ensures (out + EmitPiece(p, sub)) + Emit(after, sub) == goal
    ensures p.Text? ==> EmitPiece(p, sub) == [p.c]
    ensures p.Ref? ==> EmitPiece(p, sub) == Quoted(p.attr, Apply(sub, p.value))
  {
    EmitCons(p, after, sub);
    AppendAssoc(out, EmitPiece(p, sub), Emit(after, sub));
  }

  lemma DropDrop(s: string, i: nat, w: nat, j: nat)
    requires j == i + w <= |s|
    ensures s[i..][w..] == s[j..]
  {
  }

  lemma AppendAssoc(a: string, b: string, c: string)
    ensures (a + b) + c == a + (b + c)
  {
  }

  lemma EmitCons(p: Piece, ps: seq<Piece>, sub: ValueMap)
    ensures Emit([p] + ps, sub) == EmitPiece(p, sub) + Emit(ps, sub)
  {
    assert ([p] + ps)[1..] == ps;
  }

  /** `html.replace` as the regex engine runs it: a left-to-right loop that
      tries the pattern at the current index, appends the callback's value
      and skips the match when it succeeds, and copies one character and
      advances by one when it fails. */
  method ReplaceAll(h: Host, dir: Path, html: string) returns (out: string)
    ensures out == Rewrite(h, dir, html)
  {
    var sub := Resolve(h, dir);
    out := "";
    var i := 0;
    assert html[i..] == html;
    while i < |html|
      invariant 0 <= i <= |html|
      invariant out + Emit(Tokenize(html[i..]), sub) == Rewrite(h, dir, html)
      decreases |html| - i
    {
      var found := MatchAt(html[i..]);
      if found.Some? {
        var m := found.value;
        var j := i + |Quoted(m.attr, m.value)|;
        ScanStepMatch(html, i, j, sub, out, Rewrite(h, dir, html), m);
        out := out + Quoted(m.attr, Apply(sub, m.value));
        i := j;
      } else {
        var j := i + 1;
        ScanStepText(html, i, j, sub, out, Rewrite(h, dir, html));
        out := out + [html[i]];
        i := j;
      }
    }
    assert html[i..] == [];
    assert Emit(Tokenize(html[i..]), sub) == [];
    assert out + [] == out;
  }

  /** What `loadHtmlIntoPanel` leaves in the panel's webview. */
  datatype Document = Page(html: string) | ErrorDoc(error: string)

  const TitlePrefix: string := "RepoStory: "

  function Title(h: Host, filePath: Path): string {
    TitlePrefix + h.basename(filePath)
  }

  /** The load step: read the file, rewrite its asset references against its
      own directory. A read failure never escapes: it becomes the error
      document carrying the stringified error. */
  function LoadHtml(h: Host, filePath: Path): (d: Document)
    ensures d.ErrorDoc? <==> h.read(filePath).Failure?
    ensures d.ErrorDoc? ==> d.error == h.read(filePath).error
    ensures d.Page? ==> d.html == Rewrite(h, h.dirname(filePath), h.read(filePath).value)
  {
    match h.read(filePath)
    case Success(text) => Page(Rewrite(h, h.dirname(filePath), text))
    case Failure(err) => ErrorDoc(err)
  }
}

=== FILE: file_resolver.dfy ===
/** `resolveHtmlFile`: which HTML file the "Open Preview" command shows. The
    active editor's file wins when it is an HTML file; otherwise the first of
    three conventional output names that exists under the first workspace
    root; otherwise whatever the file picker returns, which may be nothing. */
module FileResolver {
  import opened Wrappers
  import opened Strings
  import opened HostServices

  /** What the editor shows when the command runs. */
  datatype Workspace = Workspace(
    /** the active editor's document file name; `None` without an editor */
    activeDocument: Option<Path>,
    /** `workspace.workspaceFolders` as root paths; `None` when undefined */
    folders: Option<seq<Path>>,
    /** what the open dialog returns: `None` when cancelled, else the chosen files */
    picked: Option<seq<Path>>
  )

  /** The exception the resolution can raise: `workspaceFolders[0].uri` on an
      empty (but defined, hence truthy) folder array. */
  datatype Thrown = NoFirstFolder

  const HtmlSuffix: string := ".html"

  /** The conventional output file names, searched in this order. */
  const Candidates: seq<string> := ["demo.html", "repo-story.html", "walkthrough.html"]

  /** The file `name` exists directly under `root`. */
  predicate Present(h: Host, root: Path, name: string) {
    h.fileExists(h.join(root, name))
  }

  /** The index of the first name from position `k` on that exists under
      `root`, searching in order. */
  function FirstPresentFrom(h: Host, root: Path, names: seq<string>, k: nat): (r: Option<nat>)
    requires k <= |names|
    ensures r.Some? ==> k <= r.value < |names| && Present(h, root, names[r.value])
    ensures r.Some? ==> forall j :: k <= j < r.value ==> !Present(h, root, names[j])
    ensures r.None? ==> forall j :: k <= j < |names| ==> !Present(h, root, names[j])
    decreases |names| - k
  {
    if k == |names| then None
    else if Present(h, root, names[k]) then Some(k)
    else FirstPresentFrom(h, root, names, k + 1)
  }

  /** `uris?.[0]?.fsPath`: the first chosen file, or nothing when the dialog
      was cancelled or returned no file. */
  function PickerChoice(picked: Option<seq<Path>>): (r: Option<Path>)
    ensures r.Some? <==> picked.Some? && |picked.value| > 0
    ensures r.Some? ==> r.value == picked.value[0]
  {
    match picked
    case None => None
    case Some(uris) => if |uris| == 0 then None else Some(uris[0])
  }

  /** The active editor's file, when it is an HTML file. */
  predicate ActiveIsHtml(ws: Workspace) {
    ws.activeDocument.Some? && EndsWith(ws.activeDocument.value, HtmlSuffix)
  }

  /** The resolution in source order. `Failure` is the exception an empty
      folder array raises; `Success(None)` is the `undefined` the command
      treats as "do nothing". */
  function ResolveHtmlFile(h: Host, ws: Workspace): (r: Result<Option<Path>, Thrown>)
    ensures ActiveIsHtml(ws) ==> r == Success(ws.activeDocument)
    ensures !ActiveIsHtml(ws) && ws.folders == Some([]) ==> r == Failure(NoFirstFolder)
    ensures !ActiveIsHtml(ws) && ws.folders.Some? && |ws.folders.value| > 0 ==>
      forall i :: 0 <= i < |Candidates| && Present(h, ws.folders.value[0], Candidates[i]) &&
                  (forall j :: 0 <= j < i ==> !Present(h, ws.folders.value[0], Candidates[j])) ==>
        r == Success(Some(h.join(ws.folders.value[0], Candidates[i])))
    ensures !ActiveIsHtml(ws) && (ws.folders.None? ||
              (|ws.folders.value| > 0 && forall i :: 0 <= i < |Candidates| ==> !Present(h, ws.folders.value[0], Candidates[i]))) ==>
      r == Success(PickerChoice(ws.picked))
  {
    if ActiveIsHtml(ws) then Success(ws.activeDocument)
    else
      match ws.folders
      case None => Success(PickerChoice(ws.picked))
      case Some(roots) =>
        if |roots| == 0 then Failure(NoFirstFolder)
        else
          var root := roots[0];
          match FirstPresentFrom(h, root, Candidates, 0)
          case Some(i) => Success(Some(h.join(root, Candidates[i])))
          case None => Success(PickerChoice(ws.picked))
  }

  /** Whatever the workspace, the result is one of the four sources and
      nothing else: the active document, a candidate under the first root,
      the picker's choice, or the empty-folders exception. */
  lemma ResolveHtmlFileFrom(h: Host, ws: Workspace)
    ensures var r := ResolveHtmlFile(h, ws);
      (r.Success? && r.value.Some? && ActiveIsHtml(ws) && r.value == ws.activeDocument) ||
      (r.Failure? && !ActiveIsHtml(ws) && ws.folders == Some([])) ||
      (r.Success? && r.value.Some? && !ActiveIsHtml(ws) && ws.folders.Some? && |ws.folders.value| > 0 &&
        exists i :: 0 <= i < |Candidates| && r.value.value == h.join(ws.folders.value[0], Candidates[i]) &&
                    Present(h, ws.folders.value[0], Candidates[i])) ||
      (r.Success? && !ActiveIsHtml(ws) && r.value == PickerChoice(ws.picked))
  {
    if !ActiveIsHtml(ws) && ws.folders.Some? && |ws.folders.value| > 0 {
      var root := ws.folders.value[0];
      match FirstPresentFrom(h, root, Candidates, 0)
      case Some(i) =>
        assert ResolveHtmlFile(h, ws).value.value == h.join(root, Candidates[i]);
      case None =>
    }
  }
}

=== FILE: host.dfy ===
/** The services the extension borrows from its host and from Node's
    libraries. Their real semantics belong to the host; here they are
    uninterpreted functions bundled in one record, so every property proved
    below holds for every possible host. A different `Host` value may be
    passed to each event, which models a file system that changes between
    events. */
module HostServices {
  import opened Wrappers

  /** An absolute or relative file-system path, as the source's `string`. */
  type Path = string

  datatype Host = Host(
    /** `path.dirname` */
    dirname: Path -> Path,
    /** `path.basename` */
    basename: Path -> string,
    /** `path.resolve(dir, relative)` */
    resolve: (Path, string) -> Path,
    /** `path.join(root, name)` */
    join: (Path, string) -> Path,
    /** `fs.existsSync` */
    fileExists: Path -> bool,
    /** `fs.readFileSync(path, "utf8")`; a failure carries `String(err)` */
    read: Path -> Result<string, string>,
    /** the string form of `webview.asWebviewUri(Uri.file(path))` */
    webviewUri: Path -> string
  )
}

=== FILE: preview_lifecycle.dfy ===
/** The preview's lifecycle: the extension's module-level state (the current
    panel, the current file path and the current file watcher) and how each
    command and host event changes it. Every event is one atomic transition;
    the host that answers file-system questions is passed to each one. */
module PreviewLifecycle {
  import opened Wrappers
  import opened HostServices
  import opened AssetRewriter
  import opened FileResolver

  type PanelId = nat
  type WatcherId = nat

  /** A webview panel: its identity, its title and the document it shows. */
  datatype Panel = Panel(id: PanelId, title: string, doc: Document)

  /** A file watcher: its identity and the path and panel its handlers
      captured when it was created. */
  datatype Watcher = Watcher(id: WatcherId, path: Path, panel: PanelId)

  /** `currentPanel`, `currentFilePath` and `fileWatcher`, plus the set of
      watchers not yet disposed and the source of fresh identities. */
  datatype State = State(
    panel: Option<Panel>,
    path: Option<Path>,
    watcher: Option<Watcher>,
    live: set<WatcherId>,
    next: nat
  )

  /** The state at activation: nothing open, nothing watched. */
  const Init: State := State(None, None, None, {}, 0)

  /** The well-formedness the transitions keep: panel, path and watcher are
      present together; the path is a non-empty string; the watcher watches
      the current path for the current panel; it is the only watcher not
      disposed; and every identity in use was drawn before `next`. */
  ghost predicate Inv(s: State) {
    && (s.panel.Some? <==> s.path.Some?)
    && (s.panel.Some? <==> s.watcher.Some?)
    && (s.path.Some? ==> s.path.value != "")
    && (s.watcher.Some? ==>
          && s.watcher.value.path == s.path.value
          && s.watcher.value.panel == s.panel.value.id
          && s.live == {s.watcher.value.id}
          && s.watcher.value.id < s.next
          && s.panel.value.id < s.next)
    && (s.watcher.None? ==> s.live == {})
  }

  lemma InitInv()
    ensures Inv(Init)
    ensures Init.panel.None? && Init.path.None? && Init.watcher.None? && Init.live == {}
  {
  }

  /** `loadHtmlIntoPanel`: the panel shows the loaded document; its title
      becomes `RepoStory: <basename>` only when the read succeeded, and stays
      as it was when the error document is shown. */
  function LoadInto(h: Host, p: Panel, filePath: Path): (r: Panel)
    ensures r.id == p.id
    ensures r.doc == LoadHtml(h, filePath)
    ensures h.read(filePath).Success? ==> r.title == Title(h, filePath)
    ensures h.read(filePath).Failure? ==> r.title == p.title && r.doc == ErrorDoc(h.read(filePath).error)
  {
    var d := LoadHtml(h, filePath);
    if d.Page? then Panel(p.id, Title(h, filePath), d) else p.(doc := d)
  }

  /** `setupFileWatcher`: dispose the current watcher, if any, then create a
      fresh one bound to `filePath` and `panel`. */
  function SetupWatcher(s: State, filePath: Path, panel: PanelId): (r: State)
    ensures r.watcher == Some(Watcher(s.next, filePath, panel))
    ensures s.next in r.live
    ensures s.watcher.Some? && s.watcher.value.id != s.next ==> s.watcher.value.id !in r.live
    ensures s.watcher.Some? && s.live <= {s.watcher.value.id} ==> r.live == {s.next}
    ensures s.watcher.None? ==> r.live == s.live + {s.next}
    ensures r.next > s.next && r.panel == s.panel && r.path == s.path
  {
    var remaining := if s.watcher.Some? then s.live - {s.watcher.value.id} else s.live;
    s.(watcher := Some(Watcher(s.next, filePath, panel)), live := remaining + {s.next}, next := s.next + 1)
  }

  /** `openPreviewPanel`: with a panel open, reuse it; otherwise create one
      with a fresh identity and the title `RepoStory: <basename>`. Either way
      the path becomes current, the file is loaded into the panel and the
      watcher is rebound. */
  function Open(h: Host, s: State, filePath: Path): (r: State)
    ensures r.path == Some(filePath)
    ensures r.panel.Some? && r.watcher.Some?
    ensures r.panel.value.doc == LoadHtml(h, filePath)
    ensures s.panel.Some? ==> r.panel.value.id == s.panel.value.id
    ensures s.panel.None? ==> r.panel.value.id == s.next && r.panel.value.title == Title(h, filePath)
    ensures r.watcher.value.path == filePath && r.watcher.value.panel == r.panel.value.id
    ensures Inv(s) ==> r.live == {r.watcher.value.id} && r.watcher.value.id !in s.live
    ensures Inv(s) && filePath != "" ==> Inv(r)
    ensures r.next > s.next
  {
    if s.panel.Some? then
      var p := LoadInto(h, s.panel.value, filePath);
      SetupWatcher(s.(panel := Some(p), path := Some(filePath)), filePath, p.id)
    else
      var created := Panel(s.next, Title(h, filePath), Page(""));
      var p := LoadInto(h, created, filePath);
      SetupWatcher(s.(panel := Some(p), path := Some(filePath), next := s.next + 1), filePath, p.id)
  }

  /** The `onDidDispose` handler: the panel and the path are cleared and the
      watcher is disposed and cleared. */
  function Dispose(s: State): (r: State)
    ensures r.panel.None? && r.path.None? && r.watcher.None?
    ensures s.watcher.Some? ==> s.watcher.value.id !in r.live
    ensures Inv(s) ==> r.live == {} && Inv(r)
    ensures r.next == s.next
  {
    var remaining := if s.watcher.Some? then s.live - {s.watcher.value.id} else s.live;
    State(None, None, None, remaining, s.next)
  }

  /** The `refresh` command: reload the current file into the current panel
      when both are set, and do nothing otherwise. */
  function Refresh(h: Host, s: State): (r: State)
    ensures s.panel.None? || s.path.None? || s.path.value == "" ==> r == s
    ensures s.panel.Some? && s.path.Some? && s.path.value != "" ==>
      r == s.(panel := Some(LoadInto(h, s.panel.value, s.path.value)))
    ensures Inv(s) ==> Inv(r)
  {
    if s.panel.Some? && s.path.Some? && s.path.value != "" then
      s.(panel := Some(LoadInto(h, s.panel.value, s.path.value)))
    else s
  }

  /** The `openInBrowser` command: the file handed to the system browser,
      if a path is current. The state is left as it is. */
  function OpenInBrowser(s: State): (r: Option<Path>)
    ensures r.Some? <==> s.path.Some? && s.path.value != ""
    ensures r.Some? ==> r == s.path
  {
    if s.path.Some? && s.path.value != "" then s.path else None
  }

  /** The `openFile` command: open `arg` when it is a non-empty path that
      exists, and do nothing otherwise. Opening goes through `Open`, so an
      open panel is reused and the watcher is rebound. */
  function OpenFile(h: Host, s: State, arg: Path): (r: State)
    ensures arg == "" || !h.fileExists(arg) ==> r == s
    ensures arg != "" && h.fileExists(arg) ==> r.path == Some(arg) && r.panel.Some? && r.panel.value.doc == LoadHtml(h, arg)
    ensures arg != "" && h.fileExists(arg) ==> r == Open(h, s, arg)
    ensures Inv(s) ==> Inv(r)
  {
    if arg != "" && h.fileExists(arg) then Open(h, s, arg) else s
  }

  /** The `openPreview` command: resolve a file and open it when the result
      is a non-empty path. The empty-folders exception rejects the command
      and leaves the state as it was. */
  function OpenPreview(h: Host, ws: Workspace, s: State): (r: Result<State, Thrown>)
    ensures ResolveHtmlFile(h, ws).Failure? <==> r.Failure?
    ensures r.Success? && r.value != s ==>
      ResolveHtmlFile(h, ws) == Success(r.value.path) && r.value.path.Some? && r.value.path.value != ""
    ensures ResolveHtmlFile(h, ws) == Success(None) ==> r == Success(s)
    ensures forall p :: ResolveHtmlFile(h, ws) == Success(Some(p)) && p != "" ==> r == Success(Open(h, s, p))
    ensures Inv(s) && r.Success? ==> Inv(r.value)
  {
    match ResolveHtmlFile(h, ws)
    case Failure(e) => Failure(e)
    case Success(None) => Success(s)
    case Success(Some(filePath)) => if filePath != "" then Success(Open(h, s, filePath)) else Success(s)
  }

  /** A watcher's change or create handler: reload the path it captured into
      the panel it captured. Only a watcher that has not been disposed fires,
      and its panel is the current one. */
  function WatcherFired(h: Host, s: State, w: WatcherId): (r: State)
    ensures w !in s.live ==> r == s
    ensures Inv(s) && w in s.live ==> r == Refresh(h, s)
    ensures Inv(s) ==> Inv(r)
    ensures r.path == s.path && r.watcher == s.watcher && r.live == s.live && r.next == s.next
  {
    if w in s.live && s.watcher.Some? && s.watcher.value.id == w &&
       s.panel.Some? && s.panel.value.id == s.watcher.value.panel then
      s.(panel := Some(LoadInto(h, s.panel.value, s.watcher.value.path)))
    else s
  }

  /** The events the extension reacts to. */
  datatype Event =
    | OpenPreviewCmd(ws: Workspace)
    | OpenFileCmd(arg: Path)
    | RefreshCmd
    | OpenInBrowserCmd
    | PanelClosed
    | FileChanged(changed: WatcherId)
    | FileCreated(created: WatcherId)

  /** The outcome of one event: the new state, the file handed to the
      browser, if any, and whether the command was rejected. */
  datatype Reaction = Reaction(state: State, external: Option<Path>, rejected: bool)

  /** One event. A panel can only be closed while it is open; a watcher's
      events reach it only while it is live. */
  function Step(h: Host, s: State, e: Event): (r: Reaction)
    ensures Inv(s) ==> Inv(r.state)
    ensures r.external.Some? ==> e == OpenInBrowserCmd && r.external == s.path
    ensures r.rejected ==> e.OpenPreviewCmd? && r.state == s
    ensures r.state.next >= s.next
    ensures e.OpenPreviewCmd? ==> (r.rejected <==> OpenPreview(h, e.ws, s).Failure?)
    ensures e.OpenPreviewCmd? && OpenPreview(h, e.ws, s).Success? ==> r.state == OpenPreview(h, e.ws, s).value
    ensures e.OpenFileCmd? ==> r.state == OpenFile(h, s, e.arg)
    ensures e == RefreshCmd ==> r.state == Refresh(h, s)
    ensures e == OpenInBrowserCmd ==> r.external == OpenInBrowser(s) && r.state == s
    ensures e == PanelClosed && s.panel.Some? ==> r.state == Dispose(s)
    ensures e == PanelClosed && s.panel.None? ==> r.state == s
    ensures e.FileChanged? ==> r.state == WatcherFired(h, s, e.changed)
    ensures e.FileCreated? ==> r.state == WatcherFired(h, s, e.created)
  {
    match e
    case OpenPreviewCmd(ws) =>
      (match OpenPreview(h, ws, s)
       case Failure(_) => Reaction(s, None, true)
       case Success(s') => Reaction(s', None, false))
    case OpenFileCmd(arg) => Reaction(OpenFile(h, s, arg), None, false)
    case RefreshCmd => Reaction(Refresh(h, s), None, false)
    case OpenInBrowserCmd => Reaction(s, OpenInBrowser(s), false)
    case PanelClosed => Reaction(if s.panel.Some? then Dispose(s) else s, None, false)
    case FileChanged(w) => Reaction(WatcherFired(h, s, w), None, false)
    case FileCreated(w) => Reaction(WatcherFired(h, s, w), None, false)
  }

  /** An event together with the host as it stands when the event arrives. */
  datatype Input = Input(h: Host, e: Event)

  /** The state after a sequence of events. */
  function Run(s: State, inputs: seq<Input>): State
    decreases |inputs|
  {
    if inputs == [] then s
    else Run(Step(inputs[0].h, s, inputs[0].e).state, inputs[1..])
  }

  /** Every state reached from a well-formed one is well-formed: at most one
      watcher is live, and panel, path and watcher come and go together. */
  lemma {:induction false} RunPreservesInv(s: State, inputs: seq<Input>)
    requires Inv(s)
    ensures Inv(Run(s, inputs))
    ensures |Run(s, inputs).live| <= 1
    ensures Run(s, inputs).panel.None? <==> Run(s, inputs).path.None?
    decreases |inputs|
  {
    if inputs != [] {
      RunPreservesInv(Step(inputs[0].h, s, inputs[0].e).state, inputs[1..]);
    } else {
      LiveAtMostOne(s);
    }
  }

  lemma LiveAtMostOne(s: State)
    requires Inv(s)
    ensures |s.live| <= 1
  {
  }

  /** The identity counter never goes down, so an identity drawn later
      differs from every identity drawn earlier. */
  lemma {:induction false} RunNeverLowersNext(s: State, inputs: seq<Input>)
    ensures Run(s, inputs).next >= s.next
    decreases |inputs|
  {
    if inputs != [] {
      RunNeverLowersNext(Step(inputs[0].h, s, inputs[0].e).state, inputs[1..]);
    }
  }

  /** Every reachable state is well-formed. */
  lemma ReachableInv(inputs: seq<Input>)
    ensures Inv(Run(Init, inputs))
  {
    InitInv();
    RunPreservesInv(Init, inputs);
  }

  /** Closing the panel and opening again creates a new panel: its identity
      differs from the closed panel's and is drawn at or after the counter,
      which no step ever lowers. */
  lemma DisposeThenOpenFresh(h: Host, s: State, filePath: Path)
    requires Inv(s) && s.panel.Some?
    ensures Open(h, Dispose(s), filePath).panel.value.id != s.panel.value.id
    ensures Open(h, Dispose(s), filePath).panel.value.id >= s.next
  {
  }

  /** Opening a second file while a panel is open reuses the panel, makes
      the second path current and leaves exactly one live watcher, bound to
      the second path; the first watcher is disposed. */
  lemma OpenTwiceOneWatcher(h: Host, h': Host, s: State, first: Path, second: Path)
    requires Inv(s) && first != "" && second != ""
    ensures var s1 := Open(h, s, first);
            var s2 := Open(h', s1, second);
            && s2.panel.value.id == s1.panel.value.id
            && s2.path == Some(second)
            && s2.live == {s2.watcher.value.id}
            && s1.watcher.value.id !in s2.live
            && s2.watcher.value.path == second
  {
  }

  /** Under the invariant a watcher event does what `refresh` does: the
      captured path and panel are the current ones. */
  lemma WatcherFiredIsRefresh(h: Host, s: State, w: WatcherId)
    requires Inv(s) && w in s.live
    ensures WatcherFired(h, s, w) == Refresh(h, s)
  {
  }
}

=== FILE: strings.dfy ===
/** Prefix and suffix tests on strings, with the meaning of JavaScript's
    `startsWith` and `endsWith` (exact, case-sensitive character comparison). */
module Strings {

  predicate StartsWith(s: string, prefix: string) {
    |prefix| <= |s| && s[..|prefix|] == prefix
  }

  predicate EndsWith(s: string, suffix: string) {
    |suffix| <= |s| && s[|s| - |suffix|..] == suffix
  }
}

=== FILE: wrappers.dfy ===
/** Failure-compatible wrappers used throughout the model: an optional value
    (the source's `T | undefined`) and a result that carries either a value
    or an error (a thrown exception). */
module Wrappers {

  datatype Option<+T> = None | Some(value: T)

  datatype Result<+R, +E> = Success(value: R) | Failure(error: E)
}
